=== FILE: README.md ===
# NIOServer, a selector-driven console-reply server, modelled in Dafny

`io_nio.NIOServer` is a single-threaded, non-blocking TCP server built on a
`java.nio` selector. One listening channel is registered for `OP_ACCEPT`.
Each accepted client is registered for `OP_READ`. After a read the client is
re-registered for `OP_WRITE`, and the line the operator types on the
server's console is sent to it as the reply. After the write the client goes back to `OP_READ`. All
connections share one 1024-byte read buffer and one 1024-byte write buffer.

The model covers the selector loop of `run()`, the three handlers `accept`,
`read` and `write`, and the two buffers. It has six modules:

- `Buffers` — the `ByteBuffer` cursor: allocate, clear, flip, put, get, and
  the channel transfers into and out of a buffer. It also composes these
  into the read path (clear, read, flip, get) and the staging half of the
  write path (clear, put, flip).
- `Selection` — the selector's key table. It records the listening
  channel, each live key with its single interest, the cancelled keys, and
  the name the next accepted channel gets. `Evolves` says how a round of
  dispatch may change the table.
- `Connection` — the server state (table plus both buffers) and the
  handlers `OnAccept`, `OnRead` and `OnWrite` as pure transitions. Anything
  the operating system or the operator decides is an input:
  - whether a connection is pending;
  - what a read returns (bytes, end-of-stream, or an `IOException`);
  - the reply line and how much of it the channel takes (or an
    `IOException`).
  Exceptions nothing catches end the run as `Halted`. These are a
  `NullPointerException` after `accept()` returns null, and a
  `BufferOverflowException` from `put`.
- `Reactor` — the inner loop over one `select()` batch:
  - `Phase` is one guarded handler call in its own `try`. A cancelled key
    throws `CancelledKeyException`, which is absorbed by cancelling it again.
  - `Dispatch` is the body for one key: skip it if invalid, otherwise run
    the accept, read and write phases.
  - `RunBatch` is the batch as a function; `BatchEvolves` bounds what it
    may change in the key table.
  - `ProcessBatch` is the iterator loop that removes each key before
    dispatching it.
- `Protocol` — the per-client conversation invariant. A client's reads and
  writes alternate, starting with a read, and its registered interest says
  whose turn it is. Every batch keeps this.
- `Scenarios` — concrete runs:
  - a client connects;
  - it sends "hi" and gets a partial answer;
  - it hangs up;
  - an over-long reply halts the server and ends its batch.

The selector's guarantees are the precondition `Reactor.Selected` of a
batch:

- The keys are distinct.
- Each key belongs to a registered channel.
- A valid key is ready only for its registered interest.

Because `readyOps()` is a snapshot, a key whose read re-registers it for
writing is not also written in the same batch. The model gets this from the
batch entry's fixed `ready` set, and `Reactor.DispatchRunsOneHandler` proves
it: under the selector's guarantee a valid key runs exactly the one handler
of its ready operation. `Reactor.SelectedNext` carries the guarantee from
the start of a batch to every later key, past the changes the earlier keys
made. `Reactor.Phase` also tests that the key is still registered for the
operation before calling the handler. Under the selector's guarantee that
test adds nothing: the second postcondition of `Reactor.Phase` shows the
phase is then exactly the handler, and `Reactor.GuardIsReadiness` shows
that in each phase of a dispatch a ready operation on a live key is the one
it is registered for. The extra test lets `Protocol.BatchAgrees` hold for
any batch at all.

On a write that throws `IOException`, `write` skips
`channel.register(selector, OP_READ)` (NIOServer.java lines 176-181). The
client therefore stays registered for `OP_WRITE`, the write buffer keeps
the staged line, and the next `select()` offers the client for writing
again. `Connection.OnWrite` leaves the key table unchanged in that case.

`accept()` returns null when no connection is pending, and the
`configureBlocking` call on line 113 then throws `NullPointerException`,
which nothing catches. The model keeps that path as
`Halted(NoPendingConnection, …)`.

## Model

| member | source | states |
|---|---|---|
| Buffers.Allocate | src/main/java/io_nio/NIOServer.java:16-17 | each server buffer starts zero-filled, with its whole capacity writable |
| Buffers.Clear | src/main/java/io_nio/NIOServer.java:124 | clear() makes the whole capacity writable again but leaves the old bytes in the array |
| Buffers.Flip | src/main/java/io_nio/NIOServer.java:143 | after flip() the readable window is exactly the bytes written before it, starting at index 0 |
| Buffers.Put | src/main/java/io_nio/NIOServer.java:174 | put(src) overflows exactly when src is longer than what remains; otherwise src lands at the position and the bytes before it are untouched |
| Buffers.RemainingIsWindow | src/main/java/io_nio/NIOServer.java:145 | remaining(), which sizes the array the data is copied into, is exactly the length of the valid data between position and limit |
| Buffers.Get | src/main/java/io_nio/NIOServer.java:145-147 | get(data) of n <= remaining() bytes returns the first n bytes of the readable window, advances the position by n, and leaves limit, capacity and contents alone |
| Buffers.ReadInto | src/main/java/io_nio/NIOServer.java:128 | channel.read stores a prefix of the pending bytes, as many as fit, at the position, and advances it by that count |
| Buffers.WriteFrom | src/main/java/io_nio/NIOServer.java:176 | channel.write sends a prefix of the readable window, as long as the channel accepts, and consumes exactly that: the position moves past the bytes sent, while the limit and the contents stay as they were |
| Buffers.Receive | src/main/java/io_nio/NIOServer.java:124-147 | the bytes extracted by clear/read/flip/get are exactly the first min(pending, 1024) bytes the channel delivered, and the buffer is left drained |
| Buffers.ReceiveForgetsOldContents | src/main/java/io_nio/NIOServer.java:123-147 | no leftover from an earlier read leaks into the extracted bytes: two buffers with different old contents yield the same bytes |
| Buffers.Stage | src/main/java/io_nio/NIOServer.java:165-175 | after clear/put/flip the readable window is exactly the line; the put overflows exactly when the line exceeds the capacity |
| Buffers.SendIsLinePrefix | src/main/java/io_nio/NIOServer.java:165-176 | a line that fits is staged, and the bytes that leave are the first min(accepted, length) bytes of the line |
| Selection.Open | src/main/java/io_nio/NIOServer.java:41 | the table after init holds only the listening channel, registered for accept |
| Selection.Admit | src/main/java/io_nio/NIOServer.java:115 | the accepted channel has a fresh name, never live or cancelled before, and is the only new key, registered for read |
| Selection.Reregister | src/main/java/io_nio/NIOServer.java:152 | register() on a registered client replaces its interest and changes no other key |
| Selection.Cancel | src/main/java/io_nio/NIOServer.java:132-134 | close plus cancel removes the key from the live keys for good, and cancelling an already-cancelled key changes nothing |
| Selection.EvolvesTrans | src/main/java/io_nio/NIOServer.java:65-98 | within one batch, the changes two successive dispatch rounds make to the table compose into the allowed changes for the union of their keys |
| Connection.Init | src/main/java/io_nio/NIOServer.java:16-41 | the starting server has only the listener, registered for accept, and two fully writable 1024-byte buffers |
| Connection.OnAccept | src/main/java/io_nio/NIOServer.java:106-119 | a pending connection adds exactly one new client, registered for read only, and keeps every other key; an IOException changes nothing; a null from accept() halts the server |
| Connection.OnRead | src/main/java/io_nio/NIOServer.java:121-162 | a read of n >= 0 bytes yields exactly the delivered bytes and re-registers only this client, for write; end-of-stream and an IOException both close the channel and cancel its key; no other key changes either way |
| Connection.OnWrite | src/main/java/io_nio/NIOServer.java:164-182 | a line over 1024 bytes halts the server; otherwise the bytes sent are a prefix of the line and the client goes back to read whatever the count; a write IOException leaves the key table as it was |
| Reactor.Handle | src/main/java/io_nio/NIOServer.java:74-93 | the handler for a key's registered operation faults only on a null accept() or a reply over 1024 bytes, with no event; a read never faults |
| Reactor.Phase | src/main/java/io_nio/NIOServer.java:73-96 | asking a cancelled key about readiness is absorbed and changes nothing; no handler runs for an operation that is not ready; for a valid key the selector reported as the source does, the phase is exactly the handler of the ready operation; the key stays valid or cancelled |
| Reactor.PhaseEvolves | src/main/java/io_nio/NIOServer.java:73-96 | a phase changes only its own key's registration, by keeping or swapping its interest or cancelling it, and adds only freshly accepted clients registered for read |
| Reactor.DispatchRunsOneHandler | src/main/java/io_nio/NIOServer.java:70-97 | for a key the selector reported, a key that is no longer valid is skipped with no effect and no event; a valid key runs exactly the handler of its one ready operation, and nothing when none is ready, so a read that re-registers for write is not followed by a write |
| Reactor.GuardIsReadiness | src/main/java/io_nio/NIOServer.java:73-96 | for a key the selector reported, in each of the accept, read and write phases reached, an operation ready on the still-live key is the one the key is registered for, so the registration test adds nothing |
| Reactor.DispatchEvolves | src/main/java/io_nio/NIOServer.java:70-97 | the accept, read and write phases of one key together change only that key's registration and add only fresh clients registered for read |
| Reactor.RunningPrefixes | src/main/java/io_nio/NIOServer.java:64-98 | a batch that ends without a fault dispatched every one of its keys without a fault |
| Reactor.SelectedNext | src/main/java/io_nio/NIOServer.java:64-98 | once the keys before it have run, a selected key is still registered with the interest it was selected for, or still cancelled, so the selector's guarantee holds for it |
| Reactor.BatchEvolves | src/main/java/io_nio/NIOServer.java:64-98 | a batch that ends without a fault changes only the registrations of the selected keys, each by keeping its interest, swapping read and write, or being cancelled; every other key is untouched |
| Reactor.HaltEndsBatch | src/main/java/io_nio/NIOServer.java:57-101 | once an uncaught exception has ended the loop, no later key of the batch is dispatched: the batch outcome is the outcome at the fault |
| Reactor.RemoveNextKey | src/main/java/io_nio/NIOServer.java:68 | removing the next key from the selected set leaves exactly the keys still to come |
| Reactor.Advance | src/main/java/io_nio/NIOServer.java:65-97 | each iteration removes its key from the selected set before dispatching it, and extends the batch outcome by that key's dispatch |
| Reactor.LoopExit | src/main/java/io_nio/NIOServer.java:65 | when the loop stops, either every key was dispatched or a fault ended it, and in both cases its outcome is the batch's |
| Reactor.ProcessBatch | src/main/java/io_nio/NIOServer.java:64-98 | the loop computes the batch outcome and removes each key once, in iteration order; without a fault every key is removed and none stays selected; on a fault the last key removed is the one whose dispatch raised it: the keys before it ran without a fault, and the later keys stay selected |
| Protocol.InitAgrees | src/main/java/io_nio/NIOServer.java:41 | the starting server agrees with the empty history |
| Protocol.AcceptAgrees | src/main/java/io_nio/NIOServer.java:106-119 | accepting a client keeps every conversation alternating and in step with its interest; the new client has no turns yet and is registered for read |
| Protocol.TurnAgrees | src/main/java/io_nio/NIOServer.java:152 | a read or write that adds one turn to one client's conversation and flips its interest keeps every conversation in step with its interest |
| Protocol.ReadAgrees | src/main/java/io_nio/NIOServer.java:121-162 | a read on a client registered for read, whether it delivers bytes, meets end-of-stream or fails, keeps every conversation alternating and in step with the client's interest |
| Protocol.WriteAgrees | src/main/java/io_nio/NIOServer.java:164-182 | a write on a client registered for write, whether it sends part of the line, all of it, or fails, keeps every conversation alternating and in step with the client's interest |
| Protocol.PhaseAgrees | src/main/java/io_nio/NIOServer.java:73-96 | each guarded handler call keeps the agreement between interests and conversations |
| Protocol.DispatchAgrees | src/main/java/io_nio/NIOServer.java:70-97 | dispatching any key, valid or not, keeps the agreement |
| Protocol.BatchAgrees | src/main/java/io_nio/NIOServer.java:64-98 | every batch, whatever keys it holds, keeps each client's reads and writes alternating Read, Write, Read, ..., with a live client registered for write exactly when it has been read from once more than written to |
| Scenarios.Connect | src/main/java/io_nio/NIOServer.java:106-119 | from the starting server, a pending connection becomes channel 1, registered for read |
| Scenarios.Greet | src/main/java/io_nio/NIOServer.java:121-152 | a client sending "hi" has exactly those two bytes received and is registered for write |
| Scenarios.PartialAnswer | src/main/java/io_nio/NIOServer.java:164-178 | a write that the channel takes only one byte of sends that byte and still registers the client for read |
| Scenarios.HangUp | src/main/java/io_nio/NIOServer.java:82-96 | end-of-stream closes the client, and the cancelled-key exception from the following isWritable() is absorbed without a fault |
| Scenarios.OverlongReply | src/main/java/io_nio/NIOServer.java:174 | a 1025-byte reply halts the server with a buffer overflow and no event |
| Scenarios.OverlongReplyEndsBatch | src/main/java/io_nio/NIOServer.java:64-98 | a 1025-byte reply to a key in the middle of a batch ends the batch with a buffer overflow, keeping the events of the earlier keys and dispatching none of the later ones |

## Left out

- `select()` blocking and the interrupt behaviour are not modelled. A batch is taken as given, subject to the selector's guarantees (`Reactor.Selected`).
- The endless outer `while (true)` and its `IOException` catch around `select()` are not modelled. One batch is modelled, and `Protocol.BatchAgrees` chains across batches because its conclusion is its own precondition.
- Sockets, `bind`, `configureBlocking` and port numbers are left out. The model has channel names and the readiness the environment reports.
- `main`, the thread start, and `init`'s console output and swallowed exceptions are left out. `Connection.Init` is the state after a successful `init`.
- Console input (`Scanner.nextLine`) is an input, the reply line. Its `NoSuchElementException` on a closed console is not modelled.
- Console output and `getRemoteAddress()` are left out. The `Received` event carries the bytes that would be printed.
- UTF-8 decoding of the received bytes and encoding of the reply line are left out. The model works on bytes.
- An `IOException` from `getRemoteAddress()` or `register()` in `read` is not separated from one thrown by `channel.read`. Each counts as a failed read, which closes the channel.
- An `IOException` from `close()` inside `read`'s catch block is left out. The key is then left uncancelled, a path the model does not represent.
- Buffers.WriteFrom: the count `channel.write` returns is not modelled as a separate value, because the server ignores it. Only the bytes that left are recorded.
- Connection.OnRead: for a failed read, the read buffer is modelled as cleared, not holding whatever partial bytes the failed call may have left. The next read clears it again, so nothing observable depends on it.

=== FILE: buffers.dfy ===
/**
 * The java.nio.ByteBuffer operations the server performs on its two
 * buffers: a fixed array of bytes with a position/limit cursor. Only the
 * calls the server makes are modelled, plus the two channel transfers
 * (SocketChannel.read into a buffer, SocketChannel.write out of one).
 */
module Buffers {

  type byte = b: int | 0 <= b < 256

  /** Both server buffers come from ByteBuffer.allocate(1024). */
  const Capacity: nat := 1024

  function Min(a: nat, b: nat): nat
  {
    if a <= b then a else b
  }

  datatype Buffer = Buffer(pos: nat, lim: nat, cap: nat, data: seq<byte>)

  /** A buffer whose cursor keeps 0 <= position <= limit <= capacity over a
      backing array of exactly `cap` bytes. */
  type ByteBuffer = b: Buffer | b.pos <= b.lim <= b.cap && |b.data| == b.cap
    witness Buffer(0, 0, 0, [])

  /** remaining(): the number of bytes between position and limit. */
  function Remaining(b: ByteBuffer): (r: nat)
    ensures r <= b.cap - b.pos
  {
    b.lim - b.pos
  }

  /** remaining() is the number of bytes a relative get or a channel write
      can consume: the length of the window between position and limit. */
  lemma RemainingIsWindow(b: ByteBuffer)
    ensures Remaining(b) == |Window(b)|
    ensures Window(b) == b.data[b.pos..b.pos + Remaining(b)]
  {
  }

  /** The bytes between position and limit: what a relative get or a channel
      write consumes next. */
  function Window(b: ByteBuffer): seq<byte>
  {
    b.data[b.pos..b.lim]
  }

  /** A bulk transfer: the buffer afterwards and the bytes that moved. */
  datatype Transfer = Transfer(buffer: ByteBuffer, bytes: seq<byte>)

  /** The result of put(byte[]): BufferOverflowException or the new buffer. */
  datatype PutResult = Overflow | Stored(buffer: ByteBuffer)

  /** Overwrites `data` with `src` from index `at` on. */
  function Splice(data: seq<byte>, at: nat, src: seq<byte>): (r: seq<byte>)
    requires at + |src| <= |data|
    ensures |r| == |data|
    ensures r[..at] == data[..at]
    ensures r[at..at + |src|] == src
  {
    data[..at] + src + data[at + |src|..]
  }

  /** allocate(cap): a zero-filled buffer whose whole capacity is writable. */
  function Allocate(cap: nat): (b: ByteBuffer)
    ensures b.cap == cap && b.pos == 0 && Remaining(b) == cap
    ensures forall i :: 0 <= i < cap ==> b.data[i] == 0
  {
    Buffer(0, cap, cap, seq(cap, _ => 0))
  }

  /** clear(): the whole capacity becomes writable again. The old bytes are
      NOT erased; only the cursor moves. */
  function Clear(b: ByteBuffer): (r: ByteBuffer)
    ensures r.cap == b.cap && r.pos == 0 && Remaining(r) == b.cap
    ensures r.data == b.data
  {
    b.(pos := 0, lim := b.cap)
  }

  /** flip(): the bytes written so far become the readable window. */
  function Flip(b: ByteBuffer): (r: ByteBuffer)
    ensures r.cap == b.cap && r.pos == 0 && r.data == b.data
    ensures Remaining(r) == b.pos
    ensures Window(r) == b.data[..b.pos]
  {
    b.(lim := b.pos, pos := 0)
  }

  /** put(src): copies `src` at the position, or overflows when it does not
      fit before the limit (the buffer is then left as it was). */
  function Put(b: ByteBuffer, src: seq<byte>): (r: PutResult)
    ensures r.Overflow? <==> |src| > Remaining(b)
    ensures r.Stored? ==>
              && r.buffer.cap == b.cap && r.buffer.lim == b.lim
              && r.buffer.pos == b.pos + |src|
              && r.buffer.data[..b.pos] == b.data[..b.pos]
              && r.buffer.data[b.pos..r.buffer.pos] == src
  {
    if |src| > Remaining(b) then Overflow
    else Stored(b.(pos := b.pos + |src|, data := Splice(b.data, b.pos, src)))
  }

  /** get(dst) with dst.length == n: the next n readable bytes, consumed. */
  function Get(b: ByteBuffer, n: nat): (r: Transfer)
    requires n <= Remaining(b)
    ensures r.bytes == Window(b)[..n]
    ensures r.buffer.cap == b.cap && r.buffer.lim == b.lim && r.buffer.data == b.data
    ensures Remaining(r.buffer) == Remaining(b) - n
  {
    Transfer(b.(pos := b.pos + n), Window(b)[..n])
  }

  /** SocketChannel.read(buffer) when the peer has the bytes `avail` pending:
      as many as fit before the limit are stored at the position, in order. */
  function ReadInto(b: ByteBuffer, avail: seq<byte>): (r: Transfer)
    ensures |r.bytes| == Min(|avail|, Remaining(b))
    ensures r.bytes == avail[..|r.bytes|]
    ensures r.buffer.cap == b.cap && r.buffer.lim == b.lim
    ensures r.buffer.pos == b.pos + |r.bytes|
    ensures r.buffer.data[b.pos..r.buffer.pos] == r.bytes
  {
    var n := Min(|avail|, Remaining(b));
    Transfer(b.(pos := b.pos + n, data := Splice(b.data, b.pos, avail[..n])), avail[..n])
  }

  /** SocketChannel.write(buffer) when the channel takes at most `accepted`
      bytes: a prefix of the readable window leaves, and the position moves
      past it. */
  function WriteFrom(b: ByteBuffer, accepted: nat): (r: Transfer)
    ensures |r.bytes| == Min(accepted, Remaining(b))
    ensures r.bytes == Window(b)[..|r.bytes|]
    ensures r.buffer.cap == b.cap && r.buffer.lim == b.lim && r.buffer.data == b.data
    ensures r.buffer.pos == b.pos + |r.bytes|
    ensures Remaining(r.buffer) == Remaining(b) - |r.bytes|
  {
    var k := Min(accepted, Remaining(b));
    Transfer(b.(pos := b.pos + k), Window(b)[..k])
  }

  /** The read path of the server: clear(), channel.read(buffer), flip(),
      then get(new byte[remaining()]). The extracted bytes are exactly the
      ones the channel delivered, whatever the buffer held before. */
  function Receive(b: ByteBuffer, avail: seq<byte>): (r: Transfer)
    ensures r.bytes == avail[..Min(|avail|, b.cap)]
    ensures r.buffer.cap == b.cap && Remaining(r.buffer) == 0
  {
    var filled := ReadInto(Clear(b), avail);
    var flipped := Flip(filled.buffer);
    Get(flipped, Remaining(flipped))
  }

  /** The staging half of the write path: clear(), put(line), flip(). When
      the line fits, the readable window is exactly the line. */
  function Stage(b: ByteBuffer, line: seq<byte>): (r: PutResult)
    ensures r.Overflow? <==> |line| > b.cap
    ensures r.Stored? ==> r.buffer.cap == b.cap && r.buffer.pos == 0 && Window(r.buffer) == line
  {
    match Put(Clear(b), line)
    case Overflow => Overflow
    case Stored(filled) => Stored(Flip(filled))
  }

  /** Whatever the two buffers held before, the read path extracts the same
      bytes from them: nothing left over from an earlier read leaks in. */
  lemma ReceiveForgetsOldContents(b1: ByteBuffer, b2: ByteBuffer, avail: seq<byte>)
    requires b1.cap == b2.cap
    ensures Receive(b1, avail).bytes == Receive(b2, avail).bytes
  {
  }

  /** On the write path the channel is offered the whole line and sends a
      prefix of it; how long a prefix only depends on what it accepts. */
  lemma SendIsLinePrefix(b: ByteBuffer, line: seq<byte>, accepted: nat)
    requires |line| <= b.cap
    ensures Stage(b, line).Stored?
    ensures WriteFrom(Stage(b, line).buffer, accepted).bytes == line[..Min(accepted, |line|)]
  {
  }
}

=== FILE: connection.dfy ===
/**
 * The per-connection state machine of the server: the server's state
 * (its selector table and its two shared buffers) and the accept, read and
 * write handlers, each a pure transition of that state. What the operating
 * system or the operator decides (whether a connection is pending, what a
 * read returns, the reply line, how much a write takes) is an input.
 */
module Connection {
  import opened Buffers
  import opened Selection

  /** The server: its selector table and the one read buffer and one write
      buffer that every connection shares. */
  datatype Server = Server(reg: Registry, readBuffer: ByteBuffer, writeBuffer: ByteBuffer)

  predicate ValidServer(s: Server)
  {
    Valid(s.reg) && s.readBuffer.cap == Capacity && s.writeBuffer.cap == Capacity
  }

  type State = s: Server | ValidServer(s)
    witness Server(Open(), Allocate(Capacity), Allocate(Capacity))

  /** What ServerSocketChannel.accept() does: hand over a pending connection,
      return null because none is pending, or throw an IOException. */
  datatype AcceptResult = Pending | NonePending | AcceptFailed

  /** What SocketChannel.read(buffer) meets: the bytes the peer has sent so
      far, end-of-stream (-1), or an IOException. */
  datatype ReadResult = Delivered(avail: seq<byte>) | EndOfStream | ReadFailed

  /** What SocketChannel.write(buffer) does: take up to `count` bytes, or
      throw an IOException. */
  datatype WriteResult = Accepts(count: nat) | WriteFailed

  /** The operator's line, already encoded as UTF-8, and the channel's
      response to writing it. */
  datatype Reply = Reply(line: seq<byte>, result: WriteResult)

  /** The environment's answers for one ready key. */
  datatype Env = Env(accept: AcceptResult, read: ReadResult, reply: Reply)

  /** What the server observably does: a new client, the bytes printed after
      a read, the bytes that left on a write, a connection torn down. */
  datatype Event =
    | Accepted(client: ChannelId)
    | Received(client: ChannelId, bytes: seq<byte>)
    | Sent(client: ChannelId, bytes: seq<byte>)
    | Closed(client: ChannelId)

  /** Exceptions that nothing in the server catches; each ends run(). A null
      from accept() makes configureBlocking throw NullPointerException, and a
      line longer than the write buffer makes put throw
      BufferOverflowException. */
  datatype Fault = NoPendingConnection | BufferOverflow

  datatype Outcome =
    | Running(server: State, events: seq<Event>)
    | Halted(fault: Fault, events: seq<Event>)

  /** The server after init: the listening channel registered for accept and
      two fresh 1024-byte buffers. */
  function Init(): (s: State)
    ensures s.reg.live == map[s.reg.listener := Accept] && s.reg.cancelled == {}
    ensures Remaining(s.readBuffer) == Capacity && Remaining(s.writeBuffer) == Capacity
  {
    Server(Open(), Allocate(Capacity), Allocate(Capacity))
  }

  /** accept(key): a pending connection becomes exactly one new client,
      registered for reading only; everything else keeps its registration. */
  function OnAccept(s: State, a: AcceptResult): (o: Outcome)
    ensures o.Halted? <==> a.NonePending?
    ensures o.Halted? ==> o.fault == NoPendingConnection && o.events == []
    ensures a.AcceptFailed? ==> o == Running(s, [])
    ensures a.Pending? ==>
              && o.Running? && |o.events| == 1 && o.events[0].Accepted?
              && var c := o.events[0].client;
                 && c !in s.reg.live && c !in s.reg.cancelled
                 && o.server.reg.live == s.reg.live[c := Read]
                 && o.server.reg.listener == s.reg.listener
                 && o.server.reg.cancelled == s.reg.cancelled
    ensures o.Running? ==> o.server.readBuffer == s.readBuffer && o.server.writeBuffer == s.writeBuffer
  {
    match a
    case AcceptFailed => Running(s, [])
    case NonePending => Halted(NoPendingConnection, [])
    case Pending => Running(s.(reg := Admit(s.reg)), [Accepted(s.reg.nextId)])
  }

  /** read(key) on a client: end-of-stream and an I/O error both close the
      channel and cancel its key; otherwise the bytes the channel delivered,
      and only those, are extracted, and the client waits to be written to. */
  function OnRead(s: State, c: ChannelId, r: ReadResult): (o: Outcome)
    requires c in s.reg.live && c != s.reg.listener
    ensures o.Running?
    ensures o.server.reg.listener == s.reg.listener && o.server.reg.nextId == s.reg.nextId
    ensures r.Delivered? ==>
              && o.events == [Received(c, r.avail[..Min(|r.avail|, Capacity)])]
              && o.server.reg.live == s.reg.live[c := Write]
              && o.server.reg.cancelled == s.reg.cancelled
    ensures !r.Delivered? ==>
              && o.events == [Closed(c)]
              && o.server.reg.live == s.reg.live - {c}
              && o.server.reg.cancelled == s.reg.cancelled + {c}
    ensures o.server.writeBuffer == s.writeBuffer
  {
    match r
    case Delivered(avail) =>
      var t := Receive(s.readBuffer, avail);
      Running(s.(readBuffer := t.buffer, reg := Reregister(s.reg, c, Write)), [Received(c, t.bytes)])
    case EndOfStream =>
      Running(s.(readBuffer := Clear(s.readBuffer), reg := Cancel(s.reg, c)), [Closed(c)])
    case ReadFailed =>
      Running(s.(readBuffer := Clear(s.readBuffer), reg := Cancel(s.reg, c)), [Closed(c)])
  }

  /** write(key) on a client: the line is staged in the write buffer and
      offered to the channel, which sends a prefix of it; the client then
      waits to be read from, however much was sent. A line longer than the
      buffer halts the server; a failed write leaves the registration as it
      was. */
  function OnWrite(s: State, c: ChannelId, w: Reply): (o: Outcome)
    requires c in s.reg.live && c != s.reg.listener
    ensures o.Halted? <==> |w.line| > Capacity
    ensures o.Halted? ==> o.fault == BufferOverflow && o.events == []
    ensures o.Running? && w.result.Accepts? ==>
              && o.events == [Sent(c, w.line[..Min(w.result.count, |w.line|)])]
              && o.server.reg.live == s.reg.live[c := Read]
              && o.server.reg.listener == s.reg.listener
              && o.server.reg.cancelled == s.reg.cancelled
              && o.server.reg.nextId == s.reg.nextId
    ensures o.Running? && w.result.WriteFailed? ==> o.events == [] && o.server.reg == s.reg
    ensures o.Running? ==> o.server.readBuffer == s.readBuffer
  {
    match Stage(s.writeBuffer, w.line)
    case Overflow => Halted(BufferOverflow, [])
    case Stored(staged) =>
      match w.result
      case WriteFailed => Running(s.(writeBuffer := staged), [])
      case Accepts(n) =>
        var t := WriteFrom(staged, n);
        Running(s.(writeBuffer := t.buffer, reg := Reregister(s.reg, c, Read)), [Sent(c, t.bytes)])
  }
}

=== FILE: protocol.dfy ===
/**
 * The conversation each client has with the server. From the moment it is
 * accepted, a client's reads and writes strictly alternate, starting with a
 * read, and its registered interest says whose turn it is. This is an
 * invariant of the server state together with everything observed so far,
 * kept by every handler and hence by every batch.
 */
module Protocol {
  import opened Buffers
  import opened Selection
  import opened Connection
  import opened Reactor

  /** A read from the client, or a write to it. */
  datatype Turn = Inbound | Outbound

  function TurnOf(ev: Event, c: ChannelId): seq<Turn>
  {
    match ev
    case Received(d, _) => if d == c then [Inbound] else []
    case Sent(d, _) => if d == c then [Outbound] else []
    case _ => []
  }

  /** The reads and writes of client `c` in an observed trace, in order. */
  function Conversation(trace: seq<Event>, c: ChannelId): seq<Turn>
    decreases |trace|
  {
    if trace == [] then []
    else Conversation(trace[..|trace| - 1], c) + TurnOf(trace[|trace| - 1], c)
  }

  /** Read, write, read, write, ... */
  predicate Alternating(turns: seq<Turn>)
  {
    forall i :: 0 <= i < |turns| ==> turns[i] == (if i % 2 == 0 then Inbound else Outbound)
  }

  /** Every client's conversation alternates; a live client is registered
      for writing exactly when it has been read from once more than written
      to; channels not yet opened have no conversation. */
  ghost predicate Agrees(s: State, trace: seq<Event>)
  {
    && (forall c :: Alternating(Conversation(trace, c)))
    && (forall c :: c in s.reg.live && c != s.reg.listener ==>
          (s.reg.live[c] == Write <==> |Conversation(trace, c)| % 2 == 1))
    && (forall c :: s.reg.nextId <= c ==> Conversation(trace, c) == [])
  }

  lemma ConversationOne(trace: seq<Event>, ev: Event, c: ChannelId)
    ensures Conversation(trace + [ev], c) == Conversation(trace, c) + TurnOf(ev, c)
  {
    assert (trace + [ev])[..|trace|] == trace;
  }

  /** The server after init agrees with the empty trace. */
  lemma InitAgrees()
    ensures Agrees(Init(), [])
  {
  }

  /** A step that appends `turn` to the conversation of client `c` alone. */
  lemma OneTurn(trace: seq<Event>, ev: Event, c: ChannelId, turn: seq<Turn>)
    requires forall d :: TurnOf(ev, d) == if d == c then turn else []
    ensures forall d :: d != c ==> Conversation(trace + [ev], d) == Conversation(trace, d)
    ensures Conversation(trace + [ev], c) == Conversation(trace, c) + turn
  {
    forall d ensures Conversation(trace + [ev], d) == Conversation(trace, d) + TurnOf(ev, d) {
      ConversationOne(trace, ev, d);
    }
  }

  lemma AcceptAgrees(s: State, a: AcceptResult, trace: seq<Event>)
    requires Agrees(s, trace)
    ensures OnAccept(s, a).Running? ==> Agrees(OnAccept(s, a).server, trace + OnAccept(s, a).events)
  {
    var o := OnAccept(s, a);
    if a.Pending? {
      var n := s.reg.nextId;
      assert o.events == [Accepted(n)];
      OneTurn(trace, Accepted(n), n, []);
      var t := o.server;
      assert t.reg.nextId == n + 1;
      forall c | c in t.reg.live && c != t.reg.listener
        ensures t.reg.live[c] == Write <==> |Conversation(trace + o.events, c)| % 2 == 1
      {
        if c != n {
          assert c in s.reg.live;
        }
      }
    } else if a.AcceptFailed? {
      assert trace + o.events == trace;
    }
  }

  /** The turn whose parity is due extends an alternating conversation. */
  lemma AlternatingExtend(turns: seq<Turn>, turn: Turn)
    requires Alternating(turns)
    requires |turns| % 2 == 0 <==> turn == Inbound
    ensures Alternating(turns + [turn])
  {
    var after := turns + [turn];
    forall i | 0 <= i < |after|
      ensures after[i] == (if i % 2 == 0 then Inbound else Outbound)
    {
      if i < |turns| {
        assert after[i] == turns[i];
      }
    }
  }

  /** A handler that reads from or writes to client `c` appends that one
      turn to its conversation and flips its interest to the other one. */
  lemma TurnAgrees(s: State, t: State, trace: seq<Event>, ev: Event, c: ChannelId, turn: Turn)
    requires Agrees(s, trace)
    requires c in s.reg.live && c != s.reg.listener
    requires s.reg.live[c] == (if turn == Inbound then Read else Write)
    requires forall d :: TurnOf(ev, d) == if d == c then [turn] else []
    requires t.reg.live == s.reg.live[c := Toggle(s.reg.live[c])]
    requires t.reg.listener == s.reg.listener && t.reg.nextId == s.reg.nextId
    ensures Agrees(t, trace + [ev])
  {
    OneTurn(trace, ev, c, [turn]);
    var before := Conversation(trace, c);
    assert |before| % 2 == 0 <==> turn == Inbound;
    AlternatingExtend(before, turn);
    forall d ensures Alternating(Conversation(trace + [ev], d)) {
      if d != c {
        assert Conversation(trace + [ev], d) == Conversation(trace, d);
      }
    }
    forall d | d in t.reg.live && d != t.reg.listener
      ensures t.reg.live[d] == Write <==> |Conversation(trace + [ev], d)| % 2 == 1
    {
      if d != c {
        assert t.reg.live[d] == s.reg.live[d];
      }
    }
    forall d | t.reg.nextId <= d ensures Conversation(trace + [ev], d) == [] {
      assert d != c;
    }
  }

  lemma ReceivedAgrees(s: State, c: ChannelId, avail: seq<byte>, trace: seq<Event>)
    requires c in s.reg.live && c != s.reg.listener && s.reg.live[c] == Read
    requires Agrees(s, trace)
    ensures Agrees(OnRead(s, c, Delivered(avail)).server, trace + OnRead(s, c, Delivered(avail)).events)
  {
    var o := OnRead(s, c, Delivered(avail));
    var ev := Received(c, avail[..Min(|avail|, Capacity)]);
    assert o.events == [ev];
    TurnAgrees(s, o.server, trace, ev, c, Inbound);
  }

  lemma ClosedAgrees(s: State, c: ChannelId, r: ReadResult, trace: seq<Event>)
    requires c in s.reg.live && c != s.reg.listener && !r.Delivered?
    requires Agrees(s, trace)
    ensures Agrees(OnRead(s, c, r).server, trace + OnRead(s, c, r).events)
  {
    var o := OnRead(s, c, r);
    OneTurn(trace, Closed(c), c, []);
  }

  lemma ReadAgrees(s: State, c: ChannelId, r: ReadResult, trace: seq<Event>)
    requires c in s.reg.live && c != s.reg.listener && s.reg.live[c] == Read
    requires Agrees(s, trace)
    ensures Agrees(OnRead(s, c, r).server, trace + OnRead(s, c, r).events)
  {
    match r
    case Delivered(avail) => ReceivedAgrees(s, c, avail, trace);
    case _ => ClosedAgrees(s, c, r, trace);
  }

  lemma SentAgrees(s: State, c: ChannelId, w: Reply, trace: seq<Event>)
    requires c in s.reg.live && c != s.reg.listener && s.reg.live[c] == Write
    requires w.result.Accepts? && OnWrite(s, c, w).Running?
    requires Agrees(s, trace)
    ensures Agrees(OnWrite(s, c, w).server, trace + OnWrite(s, c, w).events)
  {
    var o := OnWrite(s, c, w);
    var ev := Sent(c, w.line[..Min(w.result.count, |w.line|)]);
    assert o.events == [ev];
    TurnAgrees(s, o.server, trace, ev, c, Outbound);
  }

  lemma WriteAgrees(s: State, c: ChannelId, w: Reply, trace: seq<Event>)
    requires c in s.reg.live && c != s.reg.listener && s.reg.live[c] == Write
    requires Agrees(s, trace)
    ensures OnWrite(s, c, w).Running? ==> Agrees(OnWrite(s, c, w).server, trace + OnWrite(s, c, w).events)
  {
    var o := OnWrite(s, c, w);
    if o.Running? {
      if w.result.Accepts? {
        SentAgrees(s, c, w, trace);
      } else {
        assert trace + o.events == trace;
      }
    }
  }

  lemma PhaseAgrees(s: State, e: Entry, op: Op, trace: seq<Event>)
    requires e.key in s.reg.live || e.key in s.reg.cancelled
    requires Agrees(s, trace)
    ensures Phase(s, e, op).Running? ==> Agrees(Phase(s, e, op).server, trace + Phase(s, e, op).events)
  {
    if e.key !in s.reg.live || op !in e.ready || s.reg.live[e.key] != op {
      assert trace + [] == trace;
    } else {
      assert Phase(s, e, op) == Handle(s, e.key, e.env, op);
      match op
      case Accept => AcceptAgrees(s, e.env.accept, trace);
      case Read => ReadAgrees(s, e.key, e.env.read, trace);
      case Write => WriteAgrees(s, e.key, e.env.reply, trace);
    }
  }

  /** Carries Agrees across equal arguments; it only steers the solver. */
  lemma Transport(s: State, t: State, x: seq<Event>, y: seq<Event>)
    requires Agrees(s, x) && s == t && x == y
    ensures Agrees(t, y)
  {
  }

  /** Reassociates four traces; it only steers the solver. */
  lemma Regroup(t: seq<Event>, x: seq<Event>, y: seq<Event>, z: seq<Event>)
    ensures t + ((x + y) + z) == ((t + x) + y) + z
  {
  }

  /** Reassociates three traces; it only steers the solver. */
  lemma Regroup2(t: seq<Event>, x: seq<Event>, y: seq<Event>)
    ensures t + (x + y) == (t + x) + y
  {
  }

  lemma ValidDispatchAgrees(s: State, e: Entry, trace: seq<Event>)
    requires e.key in s.reg.live
    requires Agrees(s, trace)
    requires Dispatch(s, e).Running?
    ensures Agrees(Dispatch(s, e).server, trace + Dispatch(s, e).events)
  {
    var a := Phase(s, e, Accept);
    var r := Phase(a.server, e, Read);
    var w := Phase(r.server, e, Write);
    var o := Dispatch(s, e);
    assert o == After(a.events + r.events, w);
    PhaseAgrees(s, e, Accept, trace);
    PhaseAgrees(a.server, e, Read, trace + a.events);
    PhaseAgrees(r.server, e, Write, (trace + a.events) + r.events);
    assert o.events == (a.events + r.events) + w.events;
    Regroup(trace, a.events, r.events, w.events);
    Transport(w.server, o.server, ((trace + a.events) + r.events) + w.events, trace + o.events);
  }

  /** Dispatching any key, valid or not, keeps the agreement. */
  lemma DispatchAgrees(s: State, e: Entry, trace: seq<Event>)
    requires Agrees(s, trace)
    ensures Dispatch(s, e).Running? ==> Agrees(Dispatch(s, e).server, trace + Dispatch(s, e).events)
  {
    var o := Dispatch(s, e);
    if e.key !in s.reg.live {
      assert o == Running(s, []);
      assert trace + o.events == trace;
      Transport(s, o.server, trace, trace + o.events);
    } else if o.Running? {
      ValidDispatchAgrees(s, e, trace);
    }
  }

  lemma EmptyBatchAgrees(s: State, batch: seq<Entry>, trace: seq<Event>)
    requires batch == [] && Agrees(s, trace)
    ensures Agrees(RunBatch(s, batch).server, trace + RunBatch(s, batch).events)
  {
    var o := RunBatch(s, batch);
    assert o == Running(s, []);
    assert trace + o.events == trace;
    Transport(s, o.server, trace, trace + o.events);
  }

  /** A dispatch appended to what was observed before keeps the agreement. */
  lemma AfterDispatchAgrees(t: State, earlier: seq<Event>, e: Entry, trace: seq<Event>)
    requires Agrees(t, trace + earlier)
    ensures After(earlier, Dispatch(t, e)).Running? ==>
              Agrees(After(earlier, Dispatch(t, e)).server, trace + After(earlier, Dispatch(t, e)).events)
  {
    var next := Dispatch(t, e);
    var o := After(earlier, next);
    if o.Running? {
      DispatchAgrees(t, e, trace + earlier);
      assert Agrees(next.server, (trace + earlier) + next.events);
      assert o.server == next.server && o.events == earlier + next.events;
      Regroup2(trace, earlier, next.events);
      Transport(next.server, o.server, (trace + earlier) + next.events, trace + o.events);
    }
  }

  /** The last key of a batch keeps the agreement the earlier ones kept. */
  lemma LastKeyAgrees(s: State, batch: seq<Entry>, trace: seq<Event>)
    requires |batch| > 0
    requires RunBatch(s, batch[..|batch| - 1]).Running? ==>
               Agrees(RunBatch(s, batch[..|batch| - 1]).server, trace + RunBatch(s, batch[..|batch| - 1]).events)
    ensures RunBatch(s, batch).Running? ==> Agrees(RunBatch(s, batch).server, trace + RunBatch(s, batch).events)
  {
    var i := |batch| - 1;
    var prev := RunBatch(s, batch[..i]);
    if prev.Halted? {
      HaltEndsBatch(s, batch, i);
      return;
    }
    RunBatchStep(s, batch, i);
    AfterDispatchAgrees(prev.server, prev.events, batch[i], trace);
    assert batch[..i + 1] == batch;
  }

  /** Every batch keeps the agreement between the registrations and the
      conversations: a client's reads and writes alternate, starting with a
      read, across any number of batches. This needs nothing of the
      selector: whatever keys it reports, a handler only runs on a key
      registered for it. */
  lemma {:induction false} BatchAgrees(s: State, batch: seq<Entry>, trace: seq<Event>)
    requires Agrees(s, trace)
    ensures RunBatch(s, batch).Running? ==> Agrees(RunBatch(s, batch).server, trace + RunBatch(s, batch).events)
    decreases |batch|
  {
    if batch == [] {
      EmptyBatchAgrees(s, batch, trace);
    } else {
      BatchAgrees(s, batch[..|batch| - 1], trace);
      LastKeyAgrees(s, batch, trace);
    }
  }
}

=== FILE: reactor.dfy ===
/**
 * The reactor loop of run(): one batch of selected keys, each removed from
 * the selected set and then, if still valid, offered to the accept, read and
 * write handlers in turn, with a cancelled-key exception absorbed per
 * handler. Blocking in select() and the endless outer loop are not modelled;
 * a batch is what one select() returned.
 */
module Reactor {
  import opened Buffers
  import opened Selection
  import opened Connection

  /** A selected key: its channel, its ready operations, and the
      environment's answers should a handler run for it. */
  datatype Entry = Entry(key: ChannelId, ready: set<Op>, env: Env)

  function Keys(batch: seq<Entry>): seq<ChannelId>
  {
    seq(|batch|, i requires 0 <= i < |batch| => batch[i].key)
  }

  function KeySet(batch: seq<Entry>): set<ChannelId>
  {
    set i | 0 <= i < |batch| :: batch[i].key
  }

  /** What the selector promises about the keys one select() returns: they
      are distinct keys of registered channels, and a key that is still valid
      is ready only for the operation it is registered for. */
  predicate Selected(s: State, batch: seq<Entry>)
  {
    && (forall i, j :: 0 <= i < j < |batch| ==> batch[i].key != batch[j].key)
    && (forall i :: 0 <= i < |batch| ==> batch[i].key in s.reg.live || batch[i].key in s.reg.cancelled)
    && (forall i :: 0 <= i < |batch| && batch[i].key in s.reg.live ==>
          batch[i].ready <= {s.reg.live[batch[i].key]})
  }

  /** Puts events observed earlier in front of an outcome's own. */
  function After(earlier: seq<Event>, o: Outcome): (r: Outcome)
    ensures r.Running? == o.Running?
    ensures r.Running? ==> r.server == o.server
    ensures r.events == earlier + o.events
  {
    match o
    case Running(s, ev) => Running(s, earlier + ev)
    case Halted(f, ev) => Halted(f, earlier + ev)
  }

  /** The handler for `op`, run on a key registered for `op`. */
  function Handle(s: State, c: ChannelId, env: Env, op: Op): (o: Outcome)
    requires c in s.reg.live && s.reg.live[c] == op
    ensures o.Halted? <==> (op == Accept && env.accept.NonePending?) || (op == Write && |env.reply.line| > Capacity)
    ensures o.Halted? ==> o.events == []
    ensures op == Read ==> o.Running?
  {
    match op
    case Accept => OnAccept(s, env.accept)
    case Read => OnRead(s, c, env.read)
    case Write => OnWrite(s, c, env.reply)
  }

  /** One of the three guarded handler calls for a key, each in its own
      try block. Asking a cancelled key whether it is ready throws
      CancelledKeyException, which is caught by cancelling the key again.
      Otherwise the handler runs if `op` is among the key's ready operations;
      the selector only ever reports operations a key is registered for,
      which the second half of the guard makes explicit. */
  function Phase(s: State, e: Entry, op: Op): (o: Outcome)
    requires e.key in s.reg.live || e.key in s.reg.cancelled
    ensures e.key !in s.reg.live || op !in e.ready ==> o == Running(s, [])
    ensures e.key in s.reg.live && e.ready <= {s.reg.live[e.key]} && op in e.ready ==>
              o == Handle(s, e.key, e.env, op)
    ensures o.Running? ==> e.key in o.server.reg.live || e.key in o.server.reg.cancelled
  {
    if e.key !in s.reg.live then
      Running(s.(reg := Cancel(s.reg, e.key)), [])
    else if op !in e.ready || s.reg.live[e.key] != op then
      Running(s, [])
    else
      Handle(s, e.key, e.env, op)
  }

  /** A phase changes the registration of its own key alone: it keeps or
      swaps its interest, or cancels it; an accept adds one client,
      registered for reading. */
  lemma PhaseEvolves(s: State, e: Entry, op: Op)
    requires e.key in s.reg.live || e.key in s.reg.cancelled
    ensures Phase(s, e, op).Running? ==> Evolves(s.reg, Phase(s, e, op).server.reg, {e.key})
  {
    var o := Phase(s, e, op);
    if e.key in s.reg.live && op in e.ready && s.reg.live[e.key] == op && o.Running? {
      assert o == Handle(s, e.key, e.env, op);
      match op
      case Accept =>
      case Read =>
      case Write =>
    }
  }

  /** The body of the inner loop after keys.remove(): an invalid key is
      skipped; a valid one goes through the accept, read and write phases in
      that order, each seeing the state the previous one left. */
  function Dispatch(s: State, e: Entry): Outcome
  {
    if e.key !in s.reg.live then
      Running(s, [])
    else
      var a := Phase(s, e, Accept);
      if a.Halted? then a
      else
        var r := Phase(a.server, e, Read);
        if r.Halted? then After(a.events, r)
        else After(a.events + r.events, Phase(r.server, e, Write))
  }

  /** Under the selector's promise an invalid key is skipped and a valid key
      runs exactly one handler, the one for the operation it is ready for and
      registered for: because the ready set is a snapshot, a read that
      re-registers the key for writing is not followed by a write in the same
      dispatch. */
  lemma DispatchRunsOneHandler(s: State, e: Entry)
    requires Selected(s, [e])
    ensures e.key !in s.reg.live ==> Dispatch(s, e) == Running(s, [])
    ensures e.key in s.reg.live ==>
              Dispatch(s, e) ==
                if e.ready == {} then Running(s, [])
                else Handle(s, e.key, e.env, s.reg.live[e.key])
  {
    if e.key !in s.reg.live {
      return;
    }
    assert [e][0] == e;
    var op := s.reg.live[e.key];
    assert e.ready <= {op};
    if e.ready == {} {
      assert Phase(s, e, Accept) == Running(s, []);
      assert Phase(s, e, Read) == Running(s, []);
      assert Phase(s, e, Write) == Running(s, []);
    } else {
      assert e.ready == {op};
      var h := Handle(s, e.key, e.env, op);
      match op
      case Accept =>
        assert Phase(s, e, Accept) == h;
        if h.Running? {
          var t := h.server;
          assert Phase(t, e, Read) == Running(t, []);
          assert Phase(t, e, Write) == Running(t, []);
          assert h.events + [] + [] == h.events;
        }
      case Read =>
        assert Phase(s, e, Accept) == Running(s, []);
        assert Phase(s, e, Read) == h;
        var t := h.server;
        assert Phase(t, e, Write) == Running(t, []);
        assert [] + h.events + [] == h.events;
      case Write =>
        assert Phase(s, e, Accept) == Running(s, []);
        assert Phase(s, e, Read) == Running(s, []);
        assert Phase(s, e, Write) == h;
        assert [] + [] + h.events == h.events;
    }
  }

  /** Under the selector's promise the second half of the guard in Phase
      never decides anything: in each of the three phases that is reached,
      an operation reported ready on a live key is the one the key is
      registered for. */
  lemma GuardIsReadiness(s: State, e: Entry)
    requires Selected(s, [e]) && e.key in s.reg.live
    ensures Accept in e.ready ==> s.reg.live[e.key] == Accept
    ensures var a := Phase(s, e, Accept);
            a.Running? && e.key in a.server.reg.live && Read in e.ready ==>
              a.server.reg.live[e.key] == Read
    ensures var a := Phase(s, e, Accept);
            a.Running? ==>
              var r := Phase(a.server, e, Read);
              r.Running? && e.key in r.server.reg.live && Write in e.ready ==>
                r.server.reg.live[e.key] == Write
  {
    assert [e][0] == e;
    var op := s.reg.live[e.key];
    assert e.ready <= {op};
    if Write in e.ready {
      assert op == Write;
      assert Phase(s, e, Accept) == Running(s, []);
      assert Phase(s, e, Read) == Running(s, []);
    }
  }

  /** Dispatching a key changes the registration of that key alone, besides
      registering newly accepted clients for reading. */
  lemma DispatchEvolves(s: State, e: Entry)
    ensures Dispatch(s, e).Running? ==> Evolves(s.reg, Dispatch(s, e).server.reg, {e.key})
  {
    var o := Dispatch(s, e);
    if e.key in s.reg.live && o.Running? {
      var a := Phase(s, e, Accept);
      var r := Phase(a.server, e, Read);
      var w := Phase(r.server, e, Write);
      assert o.server == w.server;
      PhaseEvolves(s, e, Accept);
      PhaseEvolves(a.server, e, Read);
      PhaseEvolves(r.server, e, Write);
      EvolvesTrans(s.reg, a.server.reg, r.server.reg, {e.key}, {e.key});
      EvolvesTrans(s.reg, r.server.reg, w.server.reg, {e.key}, {e.key});
    }
  }

  /** The keys of one select(), dispatched in iteration order. The first
      uncaught fault ends the batch; the events observed up to it are kept. */
  function RunBatch(s: State, batch: seq<Entry>): Outcome
    decreases |batch|
  {
    if batch == [] then
      Running(s, [])
    else
      var prev := RunBatch(s, batch[..|batch| - 1]);
      if prev.Halted? then prev
      else After(prev.events, Dispatch(prev.server, batch[|batch| - 1]))
  }

  /** A batch that ends running ran every one of its prefixes without a
      fault: no key of it raised an uncaught exception. */
  lemma RunningPrefixes(s: State, batch: seq<Entry>, i: nat)
    requires i <= |batch| && RunBatch(s, batch).Running?
    ensures RunBatch(s, batch[..i]).Running?
  {
    if RunBatch(s, batch[..i]).Halted? {
      HaltEndsBatch(s, batch, i);
    }
  }

  /** One more key, once its predecessors have run without a fault, is
      dispatched on the state they left. */
  lemma RunBatchStep(s: State, batch: seq<Entry>, i: nat)
    requires i < |batch| && RunBatch(s, batch[..i]).Running?
    ensures RunBatch(s, batch[..i + 1])
            == After(RunBatch(s, batch[..i]).events, Dispatch(RunBatch(s, batch[..i]).server, batch[i]))
  {
    assert batch[..i + 1][..i] == batch[..i];
  }

  /** The last key of a selected batch is still valid or cancelled when its
      turn comes, because the earlier dispatches did not touch it. */
  lemma LastKeyRegistered(s: State, t: State, batch: seq<Entry>)
    requires Selected(s, batch) && |batch| > 0
    requires Evolves(s.reg, t.reg, KeySet(batch[..|batch| - 1]))
    ensures batch[|batch| - 1].key in t.reg.live || batch[|batch| - 1].key in t.reg.cancelled
    ensures KeySet(batch) == KeySet(batch[..|batch| - 1]) + {batch[|batch| - 1].key}
    ensures batch[|batch| - 1].key < s.reg.nextId
  {
    var e := batch[|batch| - 1];
    assert e.key !in KeySet(batch[..|batch| - 1]);
  }

  /** The last key of a selected batch extends what its predecessors did to
      the table by what its own dispatch does. */
  lemma LastKeyEvolves(s: State, batch: seq<Entry>)
    requires Selected(s, batch) && |batch| > 0
    requires RunBatch(s, batch[..|batch| - 1]).Running? ==>
               Evolves(s.reg, RunBatch(s, batch[..|batch| - 1]).server.reg, KeySet(batch[..|batch| - 1]))
    ensures RunBatch(s, batch).Running? ==> Evolves(s.reg, RunBatch(s, batch).server.reg, KeySet(batch))
  {
    var n := |batch| - 1;
    var prev := RunBatch(s, batch[..n]);
    if prev.Running? {
      var next := Dispatch(prev.server, batch[n]);
      assert RunBatch(s, batch) == After(prev.events, next);
      LastKeyRegistered(s, prev.server, batch);
      StepEvolves(s, prev.server, batch[n], KeySet(batch[..n]));
    }
  }

  /** One more key dispatched after a round of changes to other keys. */
  lemma StepEvolves(s: State, t: State, e: Entry, keys: set<ChannelId>)
    requires Evolves(s.reg, t.reg, keys)
    requires e.key in t.reg.live || e.key in t.reg.cancelled
    requires e.key < s.reg.nextId
    ensures Dispatch(t, e).Running? ==> Evolves(s.reg, Dispatch(t, e).server.reg, keys + {e.key})
  {
    var next := Dispatch(t, e);
    if next.Running? {
      DispatchEvolves(t, e);
      EvolvesTrans(s.reg, t.reg, next.server.reg, keys, {e.key});
    }
  }


  /** A batch that ends without a fault changes only the registrations of
      its keys, each by keeping its interest, swapping read and write, or
      being cancelled; the only channels it adds are clients it accepted,
      registered for reading. */
  lemma {:induction false} BatchEvolves(s: State, batch: seq<Entry>)
    requires Selected(s, batch)
    ensures RunBatch(s, batch).Running? ==> Evolves(s.reg, RunBatch(s, batch).server.reg, KeySet(batch))
    decreases |batch|
  {
    if batch == [] {
      assert RunBatch(s, batch) == Running(s, []);
    } else {
      assert Selected(s, batch[..|batch| - 1]);
      BatchEvolves(s, batch[..|batch| - 1]);
      LastKeyEvolves(s, batch);
    }
  }

  /** The selector's promise about a key still holds when the keys before
      it in the batch have run: they touch only their own registrations, so
      the key stays registered with the same interest, or stays cancelled. */
  lemma SelectedNext(s: State, batch: seq<Entry>, i: nat)
    requires Selected(s, batch) && i < |batch| && RunBatch(s, batch[..i]).Running?
    ensures Selected(RunBatch(s, batch[..i]).server, [batch[i]])
  {
    var t := RunBatch(s, batch[..i]).server;
    var e := batch[i];
    assert Selected(s, batch[..i]);
    BatchEvolves(s, batch[..i]);
    assert e.key !in KeySet(batch[..i]);
    assert [e][0] == e;
  }

  /** Once a prefix of the batch has halted, the rest of the batch is never
      dispatched. */
  lemma {:induction false} HaltEndsBatch(s: State, batch: seq<Entry>, i: nat)
    requires i <= |batch| && RunBatch(s, batch[..i]).Halted?
    ensures RunBatch(s, batch) == RunBatch(s, batch[..i])
    decreases |batch| - i
  {
    if i < |batch| {
      assert batch[..i + 1][..i] == batch[..i];
      HaltEndsBatch(s, batch, i + 1);
    } else {
      assert batch[..i] == batch;
    }
  }

  /** Removing the next key from the selected set leaves exactly the keys
      still to come, because a selected set holds each key once. */
  lemma RemoveNextKey(s: State, batch: seq<Entry>, i: nat)
    requires Selected(s, batch) && i < |batch|
    ensures KeySet(batch[i..]) - {batch[i].key} == KeySet(batch[i + 1..])
    ensures Keys(batch)[..i + 1] == Keys(batch)[..i] + [batch[i].key]
  {
    assert batch[i..] == [batch[i]] + batch[i + 1..];
    assert batch[i].key !in KeySet(batch[i + 1..]);
  }

  /** One iteration of the inner loop: keys.remove() takes the next key out
      of the selected set, then it is dispatched on the state the earlier
      keys left. */
  method Advance(s: State, batch: seq<Entry>, i: nat, o: Outcome,
                 removed: seq<ChannelId>, selected: set<ChannelId>)
    returns (o': Outcome, removed': seq<ChannelId>, selected': set<ChannelId>)
    requires Selected(s, batch) && i < |batch|
    requires o == RunBatch(s, batch[..i]) && o.Running?
    requires removed == Keys(batch)[..i] && selected == KeySet(batch[i..])
    ensures o' == RunBatch(s, batch[..i + 1])
    ensures removed' == Keys(batch)[..i + 1] && selected' == KeySet(batch[i + 1..])
    ensures batch[i].key in selected && selected' == selected - {batch[i].key}
  {
    var e := batch[i];
    RemoveNextKey(s, batch, i);
    selected' := selected - {e.key};
    removed' := removed + [e.key];
    RunBatchStep(s, batch, i);
    o' := After(o.events, Dispatch(o.server, e));
  }

  /** When the loop stops, either every key has been dispatched or a fault
      ended it early; both times its outcome is that of the whole batch. */
  lemma LoopExit(s: State, batch: seq<Entry>, i: nat, o: Outcome)
    requires i <= |batch| && o == RunBatch(s, batch[..i])
    requires i < |batch| ==> o.Halted?
    ensures o == RunBatch(s, batch)
    ensures o.Running? ==> i == |batch|
  {
    if o.Halted? {
      HaltEndsBatch(s, batch, i);
    } else {
      assert batch[..i] == batch;
    }
  }

  /** The inner while loop of run() over the selected-key iterator. Each key
      is removed from the selected set before it is dispatched, so every key
      is removed exactly once; a fault stops the loop right after the key
      whose handler raised it, leaving the later keys selected. */
  method ProcessBatch(s: State, batch: seq<Entry>)
    returns (o: Outcome, removed: seq<ChannelId>, selected: set<ChannelId>)
    requires Selected(s, batch)
    ensures o == RunBatch(s, batch)
    ensures |removed| <= |batch| && removed == Keys(batch)[..|removed|]
    ensures selected == KeySet(batch[|removed|..])
    ensures o.Running? ==> |removed| == |batch| && selected == {}
    ensures o.Halted? ==> 0 < |removed| && RunBatch(s, batch[..|removed| - 1]).Running?
    ensures o.Halted? ==> RunBatch(s, batch[..|removed|]).Halted?
  {
    o := Running(s, []);
    removed := [];
    selected := KeySet(batch);
    var i := 0;
    assert batch[..0] == [];
    assert batch[0..] == batch;
    while i < |batch| && o.Running?
      invariant 0 <= i <= |batch|
      invariant o == RunBatch(s, batch[..i])
      invariant removed == Keys(batch)[..i]
      invariant selected == KeySet(batch[i..])
      invariant o.Halted? ==> 0 < i && RunBatch(s, batch[..i - 1]).Running?
    {
      o, removed, selected := Advance(s, batch, i, o, removed, selected);
      i := i + 1;
    }
    LoopExit(s, batch, i, o);
  }
}

=== FILE: scenarios.dfy ===
/**
 * Concrete runs of the server, one key at a time, from the state right
 * after init and from any state with a client in the right phase: a client
 * connects, says "hi", gets part of the reply, and hangs up; and a reply too
 * long for the write buffer stops the server.
 */
module Scenarios {
  import opened Buffers
  import opened Selection
  import opened Connection
  import opened Reactor

  /** The answers of an environment in which only `r` matters for reads. */
  function Reading(r: ReadResult): Env
  {
    Env(AcceptFailed, r, Reply([], WriteFailed))
  }

  /** A client connects to the freshly started server: it becomes channel 1,
      registered for reading, next to the listener. */
  lemma Connect()
    ensures var o := Dispatch(Init(), Entry(0, {Accept}, Env(Pending, EndOfStream, Reply([], WriteFailed))));
            && o.Running? && o.events == [Accepted(1)]
            && o.server.reg.live == map[0 := Accept, 1 := Read]
  {
    var s := Init();
    var e := Entry(0, {Accept}, Env(Pending, EndOfStream, Reply([], WriteFailed)));
    var a := Phase(s, e, Accept);
    assert a == OnAccept(s, Pending);
    assert a.server.reg.live == map[0 := Accept, 1 := Read];
    assert Phase(a.server, e, Read) == Running(a.server, []);
    assert Phase(a.server, e, Write) == Running(a.server, []);
  }

  /** The client says "hi": the two bytes are printed and it waits for a
      reply. */
  lemma Greet(s: State, c: ChannelId)
    requires c in s.reg.live && c != s.reg.listener && s.reg.live[c] == Read
    ensures var o := Dispatch(s, Entry(c, {Read}, Reading(Delivered([104, 105]))));
            && o.Running? && o.events == [Received(c, [104, 105])]
            && o.server.reg.live == s.reg.live[c := Write]
  {
    var e := Entry(c, {Read}, Reading(Delivered([104, 105])));
    assert Phase(s, e, Accept) == Running(s, []);
    var r := Phase(s, e, Read);
    assert r == OnRead(s, c, Delivered([104, 105]));
    assert [104, 105][..Min(2, Capacity)] == [104, 105];
    assert Phase(r.server, e, Write) == Running(r.server, []);
  }

  /** The operator answers "hi", but the channel takes only one byte of
      it: that byte leaves, and the client waits to be read from again. */
  lemma PartialAnswer(s: State, c: ChannelId)
    requires c in s.reg.live && c != s.reg.listener && s.reg.live[c] == Write
    ensures var o := Dispatch(s, Entry(c, {Write}, Env(AcceptFailed, EndOfStream, Reply([104, 105], Accepts(1)))));
            && o.Running? && o.events == [Sent(c, [104])]
            && o.server.reg.live == s.reg.live[c := Read]
  {
    var e := Entry(c, {Write}, Env(AcceptFailed, EndOfStream, Reply([104, 105], Accepts(1))));
    assert Phase(s, e, Accept) == Running(s, []);
    assert Phase(s, e, Read) == Running(s, []);
    assert [104, 105][..Min(1, 2)] == [104];
  }

  /** End of stream on a read closes the client; asking the cancelled key
      whether it is writable is absorbed, and the dispatch goes on without a
      fault. */
  lemma HangUp(s: State, c: ChannelId)
    requires c in s.reg.live && c != s.reg.listener && s.reg.live[c] == Read
    ensures var o := Dispatch(s, Entry(c, {Read}, Reading(EndOfStream)));
            && o.Running? && o.events == [Closed(c)]
            && o.server.reg.live == s.reg.live - {c}
            && o.server.reg.cancelled == s.reg.cancelled + {c}
  {
    var e := Entry(c, {Read}, Reading(EndOfStream));
    var a := Phase(s, e, Accept);
    assert a == Running(s, []);
    var r := Phase(s, e, Read);
    assert r == OnRead(s, c, EndOfStream);
    assert Phase(r.server, e, Write) == Running(r.server, []);
  }

  /** A reply longer than the 1024-byte write buffer makes the dispatch of
      its key halt the server, with nothing observed. */
  lemma OverlongReply(s: State, c: ChannelId, line: seq<byte>)
    requires c in s.reg.live && c != s.reg.listener && s.reg.live[c] == Write
    requires |line| == Capacity + 1
    ensures Dispatch(s, Entry(c, {Write}, Env(AcceptFailed, EndOfStream, Reply(line, Accepts(0)))))
            == Halted(BufferOverflow, [])
  {
    var e := Entry(c, {Write}, Env(AcceptFailed, EndOfStream, Reply(line, Accepts(0))));
    assert Phase(s, e, Accept) == Running(s, []);
    assert Phase(s, e, Read) == Running(s, []);
  }

  /** The same overlong reply in the middle of a batch: the batch ends with
      that key, and the keys after it are never dispatched. */
  lemma OverlongReplyEndsBatch(s: State, batch: seq<Entry>, i: nat, line: seq<byte>)
    requires i < |batch| && RunBatch(s, batch[..i]).Running?
    requires var t := RunBatch(s, batch[..i]).server;
             var c := batch[i].key;
             && c in t.reg.live && c != t.reg.listener && t.reg.live[c] == Write
             && batch[i] == Entry(c, {Write}, Env(AcceptFailed, EndOfStream, Reply(line, Accepts(0))))
    requires |line| == Capacity + 1
    ensures RunBatch(s, batch) == Halted(BufferOverflow, RunBatch(s, batch[..i]).events)
  {
    var prev := RunBatch(s, batch[..i]);
    OverlongReply(prev.server, batch[i].key, line);
    RunBatchStep(s, batch, i);
    HaltEndsBatch(s, batch, i + 1);
  }
}

=== FILE: selection.dfy ===
/**
 * The selector's registration table as the server uses it: which channels
 * hold a valid selection key, the single interest each key is registered
 * for, and which keys have been cancelled.
 */
module Selection {

  /** Channels are named by the order in which they were opened. */
  type ChannelId = nat

  /** SelectionKey.OP_ACCEPT, OP_READ and OP_WRITE. The server never registers
      a channel for more than one of them at a time. */
  datatype Op = Accept | Read | Write

  /** The interest that follows `op` in a client's read/write cycle; the
      listening channel stays on accept. */
  function Toggle(op: Op): Op
  {
    match op
    case Accept => Accept
    case Read => Write
    case Write => Read
  }

  datatype Registry = Registry(
    listener: ChannelId,        // the ServerSocketChannel
    live: map<ChannelId, Op>,   // channels with a valid key, and its interest
    cancelled: set<ChannelId>,  // channels closed with their key cancelled
    nextId: ChannelId)          // the name the next accepted channel gets

  /** The listening channel is registered for accept and no client is; a key
      is valid or cancelled, never both; every name used so far is below
      `nextId`. */
  predicate Valid(g: Registry)
  {
    && g.listener in g.live && g.live[g.listener] == Accept
    && (forall c :: c in g.live && c != g.listener ==> g.live[c] != Accept)
    && g.live.Keys !! g.cancelled
    && (forall c :: c in g.live ==> c < g.nextId)
    && (forall c :: c in g.cancelled ==> c < g.nextId)
  }

  /** The table right after init: only the listening channel, for accept. */
  function Open(): (g: Registry)
    ensures Valid(g)
    ensures g.live == map[g.listener := Accept] && g.cancelled == {}
  {
    Registry(0, map[0 := Accept], {}, 1)
  }

  /** register(selector, OP_READ) on a channel just returned by accept(). */
  function Admit(g: Registry): (h: Registry)
    requires Valid(g)
    ensures Valid(h)
    ensures g.nextId !in g.live && g.nextId !in g.cancelled
    ensures h.live == g.live[g.nextId := Read]
    ensures h.listener == g.listener && h.cancelled == g.cancelled && h.nextId > g.nextId
  {
    g.(live := g.live[g.nextId := Read], nextId := g.nextId + 1)
  }

  /** register(selector, op) on a client that already holds a valid key: the
      key's interest is replaced, nothing else changes. */
  function Reregister(g: Registry, c: ChannelId, op: Op): (h: Registry)
    requires Valid(g) && c in g.live && c != g.listener && op != Accept
    ensures Valid(h)
    ensures h.live.Keys == g.live.Keys && h.live[c] == op
    ensures forall d :: d in g.live && d != c ==> h.live[d] == g.live[d]
    ensures h.listener == g.listener && h.cancelled == g.cancelled && h.nextId == g.nextId
  {
    g.(live := g.live[c := op])
  }

  /** channel.close() together with key.cancel(): the key stops being valid
      for good. Cancelling a key that is already cancelled changes nothing. */
  function Cancel(g: Registry, c: ChannelId): (h: Registry)
    requires Valid(g) && c != g.listener && (c in g.live || c in g.cancelled)
    ensures Valid(h)
    ensures c !in h.live && c in h.cancelled
    ensures h.live == g.live - {c} && h.cancelled == g.cancelled + {c}
    ensures h.listener == g.listener && h.nextId == g.nextId
    ensures c in g.cancelled ==> h == g
  {
    g.(live := g.live - {c}, cancelled := g.cancelled + {c})
  }

  /** How dispatching the keys in `keys` may change the table: every other
      channel keeps its registration, a dispatched channel keeps its interest,
      swaps read and write, or is cancelled, cancelled keys stay cancelled,
      and every channel that appears is a newly accepted client registered
      for reading. */
  ghost predicate Evolves(g: Registry, h: Registry, keys: set<ChannelId>)
  {
    && h.listener == g.listener
    && g.cancelled <= h.cancelled
    && g.nextId <= h.nextId
    && (forall c :: c in g.live && c !in keys ==> c in h.live && h.live[c] == g.live[c])
    && (forall c :: c in g.live && c in keys ==>
          (c in h.live && (h.live[c] == g.live[c] || h.live[c] == Toggle(g.live[c])))
          || (c !in h.live && c in h.cancelled))
    && (forall c :: c in h.live && c !in g.live ==>
          c !in g.cancelled && g.nextId <= c && h.live[c] == Read)
  }

  /** Two rounds of dispatch compose into one, provided the second round only
      touches channels that existed before the first. */
  lemma EvolvesTrans(g: Registry, h: Registry, i: Registry, k1: set<ChannelId>, k2: set<ChannelId>)
    requires Valid(g) && Valid(h) && Valid(i)
    requires Evolves(g, h, k1) && Evolves(h, i, k2)
    requires forall c :: c in k2 ==> c < g.nextId
    ensures Evolves(g, i, k1 + k2)
  {
    forall c | c in g.live && c in k1 + k2
      ensures (c in i.live && (i.live[c] == g.live[c] || i.live[c] == Toggle(g.live[c])))
              || (c !in i.live && c in i.cancelled)
    {
      if c !in h.live {
        assert c in h.cancelled;
      }
    }
    forall c | c in i.live && c !in g.live
      ensures c !in g.cancelled && g.nextId <= c && i.live[c] == Read
    {
      if c in h.live {
        assert c !in k2;
      }
    }
  }
}
